=== FILE: README.md ===
# Profile header and amenities list

A Dafny model of two presentational components of a React UI kit. Each is
written as a pure function from props to an abstract node tree. An element
carries a kind, which is the tag or component together with its attributes.
It also carries an ordered list of style-fragment tokens and its children in
document order.

- **Profile header** (`ProfileHeader`, with `UrlPattern` and `Strings`). The
  header is built from six optional blocks: avatar, location, name, website
  link, intro and tag list. A block appears only when its input is present,
  and the blocks always come in the same order. Styles come from tables keyed
  on alignment (`center`/`left`), and the order of each fragment list is
  fixed. The website block also requires the URL pattern to occur somewhere
  in the website string.
  - `UrlPattern` states that pattern declaratively: there are positions where
    a scheme, an optional `www.`, a domain label, a top-level label, a word
    boundary and a tail sit side by side. `ValidateUrl` is an executable
    search proved to agree with it.
  - `Strings` models `indexOf` and `replace` with a string pattern. These
    produce the link text: the hostname with its first `www.` removed.
- **Amenities list** (`Amenities`). A flat list of HTML items or a list of
  titled groups.
  - Each list has its own fragment array: `[base, single]` for the flat list
    and `[base, single, grouped]` for the grouped one.
  - When there is more than one column, a multi-column fragment is appended
    to the array of the active list type only.
- **Shared tree** (`Markup`). The node tree and a pre-order walk
  (`Collect`). The walk states what a tree shows in document order: the
  header's block outline and the amenities' item contents.

## Model

| member | source | states |
|---|---|---|
| Markup.When | src/components/profileHeader/index.jsx:161-169 | `{cond && <X/>}` contributes exactly one child, `X`, when `cond` holds and none otherwise |
| Strings.IndexOf | src/components/profileHeader/index.jsx:202 | the result is the leftmost position where the pattern occurs; the result is absent exactly when the pattern occurs nowhere |
| Strings.ReplaceFirst | src/components/profileHeader/index.jsx:202 | for a replacement without `$`: a string without the pattern is returned unchanged; otherwise, putting the pattern back at its leftmost occurrence in place of the replacement gives the input again |
| UrlPattern.ValidateUrl | src/components/profileHeader/index.jsx:138-140 | the executable search answers true exactly when the declarative pattern occurs somewhere in the URL |
| UrlPattern.TopLevelEndsAtRunEnd | src/components/profileHeader/index.jsx:138 | the `\b` after `[a-z]{2,6}` forces the top-level label to end where its run of lower-case letters ends |
| UrlPattern.AcceptsExample | src/components/profileHeader/index.jsx:138-140 | `validateUrl` accepts `https://www.example.com/path` |
| UrlPattern.RejectsExample | src/components/profileHeader/index.jsx:138-140 | `validateUrl` rejects `not a url` |
| UrlPattern.MatchHasScheme | src/components/profileHeader/index.jsx:138 | a URL that `validateUrl` accepts contains `http` |
| UrlPattern.UnanchoredPrefix | src/components/profileHeader/index.jsx:138-140 | the pattern is unanchored: text put in front of an accepted URL keeps it accepted |
| ProfileHeader.Resolve | src/components/profileHeader/index.jsx:91-119 | a table lookup gives the table's `default` entry, then the alignment entry; only the website and intro tables have a default |
| ProfileHeader.WithDefaults | src/components/profileHeader/index.jsx:255-263 | intro, website, avatar and location default to empty, interests to none, alignment to center, style to none |
| ProfileHeader.Hostname | src/components/profileHeader/index.jsx:142-150 | without a document the hostname is `""`; in a browser it is what the document's URL parser reports for the URL |
| ProfileHeader.LinkText | src/components/profileHeader/index.jsx:142-150 | the link text is empty without a document; otherwise it is the hostname, unchanged when it has no `www.`, and otherwise with its first `www.` removed |
| ProfileHeader.AvatarBlock | src/components/profileHeader/index.jsx:161-169 | the avatar is present iff `avatarSrc` is non-empty; it shows that source with the alt text `Avatar for user <name>`, size 80 and class `ProfileHeader-avatar`, and takes its style from the avatar table's alignment entry |
| ProfileHeader.LocationBlock | src/components/profileHeader/index.jsx:172-176 | the location label is present iff `location` is non-empty, shows it, and takes its style from the location-label table's alignment entry |
| ProfileHeader.NameBlock | src/components/profileHeader/index.jsx:178-187 | the name heading is present iff `name` is non-empty and shows it; it is a level-1, size-5, medium-weight heading whose only fragment is `styles.heading` |
| ProfileHeader.WebsiteBlock | src/components/profileHeader/index.jsx:189-205 | the paragraph is present iff the website is non-empty and valid; its fragments are `[textBodySmall, website.default, website[alignment]]`; its link has the website as `href`, opens a new tab with `noopener noreferrer`, and shows the link text |
| ProfileHeader.IntroFontSize | src/components/profileHeader/index.jsx:212-215 | the intro's font size is body-small exactly when centered and heading-7 exactly when left-aligned |
| ProfileHeader.IntroBlock | src/components/profileHeader/index.jsx:209-225 | the intro is present iff `intro` is non-empty; it has 3 lines at most and a line height of 24; its font is body-small exactly when centered; its fragments are `[textBodySmall, intro.default, intro[alignment]]` |
| ProfileHeader.Tags | src/components/profileHeader/index.jsx:233-235 | one tag per interest, in input order, keyed and labelled by the interest |
| ProfileHeader.TagListBlock | src/components/profileHeader/index.jsx:227-237 | the tag list is present iff there are interests; it passes `interestsLimit` through, uses 10 rows, takes its style from the tag-list table's alignment entry, and holds one tag per interest in order |
| ProfileHeader.TextLayout | src/components/profileHeader/index.jsx:171-206 | the inner text box (`TextContainer`) holds one child per shown block among location, name and website; the location label comes first and the website paragraph last |
| ProfileHeader.FlexLayout | src/components/profileHeader/index.jsx:160-207 | the flex box (`FlexContainer`) holds the avatar, when shown, beside the inner text box, which is always its last child |
| ProfileHeader.AssembledLayout | src/components/profileHeader/index.jsx:152-239 | the header (`Assemble`) holds the flex box first, then the intro when shown, then the tag list when shown, and nothing else |
| ProfileHeader.RenderedLayout | src/components/profileHeader/index.jsx:30-240 | in a rendered header (`Render`) the flex box is the first child; it holds an avatar image first iff `avatarSrc` is set, and the text box last; the text box has one child per shown location, name and valid website; the header has one more child per shown intro and tag list, the intro second and the tag list last |
| ProfileHeader.HeaderStyle | src/components/profileHeader/index.jsx:155-158 | the header fragments are the alignment entry, then the caller's style when one is given, so the caller's style wins |
| ProfileHeader.RenderedStyle | src/components/profileHeader/index.jsx:153-158 | the rendered root is the header element; its first fragment is the alignment entry and its last is the caller's override, when there is one |
| ProfileHeader.OutlineOfRender | src/components/profileHeader/index.jsx:152-239 | the blocks found in the rendered tree, in document order, are exactly the due blocks in the order avatar, location, name, website, intro, tag list |
| ProfileHeader.BlockPresence | src/components/profileHeader/index.jsx:161-237 | each block occurs in the rendered tree iff its input is present; for the website block, presence also requires the pattern to occur in the website |
| ProfileHeader.BlockOrder | src/components/profileHeader/index.jsx:153-238 | the blocks of any rendered header come in strictly increasing fixed rank, so none repeats or swaps |
| ProfileHeader.RenderedWebsiteLink | src/components/profileHeader/index.jsx:189-205 | a due website block is the last child of the text container; its link points at the website exactly as given and shows the hostname without its first `www.` |
| ProfileHeader.DefaultsShowOnlyName | src/components/profileHeader/index.jsx:255-263 | a header given only a non-empty name shows the name heading and no other block, whatever the alignment |
| ProfileHeader.InvalidWebsiteOnlyDropsLink | src/components/profileHeader/index.jsx:189 | a website in which the pattern does not occur renders the same header as no website at all, so no part of the website block is rendered |
| Amenities.ColumnWidth | src/components/amenities/index.jsx:112 | the columns share the six grid slots exactly |
| Amenities.ListStylesFor | src/components/amenities/index.jsx:114-126 | each list's fragments are its base fragments (`[base, single]` or `[base, single, grouped]`); the column fragment is appended iff columns is not 1, and only to the active list |
| Amenities.ColumnsOnlyOnActiveList | src/components/amenities/index.jsx:121-126 | a list has a multi-column fragment iff columns is not 1 and the list is the active one; its gap is 24/13 em and its count is the number of columns |
| Amenities.ItemStyle | src/components/amenities/index.jsx:78 | an item's fragments start with `item.base`; there are two, the second being the capitalize fragment, iff the flag is set, and only `item.base` otherwise |
| Amenities.ItemNode | src/components/amenities/index.jsx:74-79 | an item is a leaf list entry keyed by its index, holding its HTML verbatim, with a test id iff hooked and the fragments of `ItemStyle` |
| Amenities.ItemHook | src/components/amenities/index.jsx:76 | an item has a test id iff the hook flag is truthy |
| Amenities.ListItems | src/components/amenities/index.jsx:72-83 | one leaf per item, in order; leaf k has key k and the item's HTML verbatim, with a test id iff hooked; its fragments are `[item.base]` plus the capitalize fragment iff the flag is set |
| Amenities.GroupNode | src/components/amenities/index.jsx:89-102 | a group is a box keyed by its index with two children: a heading showing exactly the title, then an inner list holding the group's items with the group's capitalize flag; the box, heading and list carry exactly `item.grouped.base`, `heading.base` and `list.base`; heading and list have test ids iff `qaHook` |
| Amenities.GroupNodes | src/components/amenities/index.jsx:85-106 | one group box per group, in order, the k-th keyed k and built from the k-th group |
| Amenities.BaseStyle | src/components/amenities/index.jsx:116-117 | the flat list's base fragments are exactly `[base, single]`, and the grouped list's are those followed by `grouped` |
| Amenities.ColumnFragment | src/components/amenities/index.jsx:121-126 | the column fragment is a multi-column fragment whose count is the number of columns, whose gap is 24/13 em, and whose column width times the count fills the six grid slots |
| Amenities.ListComponent | src/components/amenities/index.jsx:128-142 | the list element carries the active list's fragments and one child per entry |
| Amenities.Render | src/components/amenities/index.jsx:144-151 | the container has the container fragment and exactly one child: a flat list in single mode, a group list in grouped mode |
| Amenities.FlatListShape | src/components/amenities/index.jsx:128-134 | flat mode shows leaf k with key k and the k-th HTML, style `[item.base]` without capitalization, and a test id iff `qaHook` |
| Amenities.GroupedListShape | src/components/amenities/index.jsx:85-106 | group k holds a heading with the title, then the group's items with the group's capitalize flag; the heading and the inner list have test ids iff `qaHook`; nested items always have one |
| Amenities.NoItemsNoChildren | src/components/amenities/index.jsx:111 | no items give an empty list in either mode |
| Amenities.DefaultRender | src/components/amenities/index.jsx:185-190 | the default props render an empty one-column flat list with fragments `[base, single]` |
| Amenities.ListItemsContent | src/components/amenities/index.jsx:72-83 | walking the leaves yields the items verbatim, in order |
| Amenities.GroupContent | src/components/amenities/index.jsx:89-101 | walking a group yields its items in order; the title adds no item |
| Amenities.GroupNodesContent | src/components/amenities/index.jsx:85-106 | walking the groups yields every group's items, group after group |
| Amenities.RenderedContent | src/components/amenities/index.jsx:111-152 | the rendered list shows every item's HTML exactly once, in input order, in both modes |

## Left out

- Rendering itself is not modelled: React and radium, JSX element construction, and radium's merging of fragment lists. Trees and fragment lists are the output.
- Style values are opaque fragment names rather than arithmetic: colours, fonts, pixel and em sizes, ratios such as `24 / 13` and `paragraphLineHeight / fontSizeBodySmall`, and the `textBodySmall()` tokens.
- `capitalize && {…}` and a `null` header `style` add no fragment, as radium skips falsy entries. The caller's `style` is an opaque id.
- `font`, `span`, `createQAHook` and `colors` are opaque. `span(…)` is the token `SpanWidth(slots)`, and `createQAHook(a, b, c)` is the token `QAHook(a, b, c)`.
- The `Avatar`, `LocationLabel`, `Heading`, `ProfileIntro`, `TagList` and `Tag` internals, such as line clamping and the tag limit, are not part of this model.
- Hostname parsing through a DOM anchor is a function parameter (`Browser(hostnameOf)`). Only the branch without a document (`Headless`, giving `""`) is modelled concretely.
- The link text drops the first `www.` anywhere in the hostname, not only a leading one, since that is what `replace` does.
- Runtime prop validation is not modelled. Values outside the declared types are not representable, such as columns other than 1, 2 and 3. A `null` string prop behaves like `""` under every `&&` guard and is modelled as `""`, so a string prop counts as absent exactly when it is empty.
- ProfileHeader.TagListBlock: `interestsLimit` is a `real`, so the JavaScript number values `NaN`, `Infinity` and `-0` are not representable; the value is only passed through to the tag list.
- Strings.ReplaceFirst: replacement strings containing `$` are excluded, because JavaScript would expand `$&`, `$$`, `` $` `` and `$'` in them; the header only ever replaces with `""`.
- Amenities.Render: requires every entry to match the list type (`WellTyped`). Mixing entries is outside the props contract, and the code would index a string as a group.
- React's handling of duplicate `key={interest}` values is not modelled. Tags are kept one per interest, in order.
- HTML in `dangerouslySetInnerHTML` is an opaque string passed through verbatim, with no parsing or sanitisation.
- The constructor's empty `state` is not modelled, because nothing reads it.

=== FILE: amenities.dfy ===
/**
 The amenities list (`src/components/amenities/index.jsx`): either a flat list
 of HTML items, or a list of titled groups each holding its own items, inside a
 container whose style depends on the list type and on the column count.
 */
module Amenities {
  import opened Markup

  datatype Columns = One | Two | Three

  function Count(c: Columns): nat {
    match c
    case One => 1
    case Two => 2
    case Three => 3
  }

  datatype ListType = Single | Grouped

  /** An entry of `items`: an HTML string in a flat list, a group in a grouped one. */
  datatype Item =
    | Amenity(html: string)
    | Group(title: string, items: seq<string>, capitalize: bool)

  datatype Props = Props(columns: Columns, items: seq<Item>, listType: ListType, qaHook: bool)

  /** `Amenities.defaultProps`. */
  const DefaultProps: Props := Props(One, [], Single, false)

  /** The entries are of the kind the list type calls for. */
  predicate WellTyped(p: Props) {
    forall k :: 0 <= k < |p.items| ==> (p.items[k].Amenity? <==> p.listType == Single)
  }

  /** The grid has six slots. */
  const TotalSlots: nat := 6

  /** A length in em, as the fraction `numerator / denominator`. */
  datatype EmRatio = Em(numerator: nat, denominator: nat)

  /** The gap between columns, `24 / 13` em. */
  const ColumnGap: EmRatio := Em(24, 13)

  /** The width token `span("<slots> of 6", "static")` of the grid helper. */
  datatype SpanWidth = SpanWidth(slots: nat)

  /** Style fragments are opaque; each names the entry of `styles` it stands for. */
  datatype Fragment =
    | ContainerBase                                        // `styles.container.base`
    | ListBase                                             // `styles.list.base`
    | ListSingle                                           // `styles.list.single`
    | ListGrouped                                          // `styles.list.grouped`
    | ItemBase                                             // `styles.item.base`
    | GroupedItemBase                                      // `styles.item.grouped.base`
    | HeadingBase                                          // `styles.heading.base`
    | Capitalize                                           // `{ textTransform: "capitalize" }`
    | MultiColumn(width: SpanWidth, count: nat, gap: EmRatio)  // `{ columns, columnGap }`

  /** Each of the given number of columns spans an equal share of the six slots. */
  function ColumnWidth(c: Columns): (w: SpanWidth)
    ensures w.slots * Count(c) == TotalSlots
  {
    SpanWidth(TotalSlots / Count(c))
  }

  /** The pushed `{ columns: "<width> <count>", columnGap }` fragment: `count` columns of equal width filling the grid. */
  function ColumnFragment(c: Columns): (r: Fragment)
    ensures r.MultiColumn? && r.count == Count(c) && r.gap == ColumnGap
    ensures r.width.slots * r.count == TotalSlots
  {
    MultiColumn(ColumnWidth(c), Count(c), ColumnGap)
  }

  /** The two style arrays of `style.list`. */
  datatype ListStyles = ListStyles(single: seq<Fragment>, grouped: seq<Fragment>) {
    function Get(t: ListType): seq<Fragment> {
      match t
      case Single => single
      case Grouped => grouped
    }
  }

  /** The fragments each list starts with: the grouped list is the single one plus its own. */
  function BaseStyle(t: ListType): (r: seq<Fragment>)
    ensures |r| >= 2 && r[..2] == [ListBase, ListSingle]
    ensures t == Single ==> |r| == 2
    ensures t == Grouped ==> |r| == 3 && r[2] == ListGrouped
  {
    match t
    case Single => [ListBase, ListSingle]
    case Grouped => [ListBase, ListSingle, ListGrouped]
  }

  /**
   `style.list` after the optional push: the column fragment is appended to
   the array of the active list type when there is more than one column; the
   other array keeps its base fragments.
   */
  function ListStylesFor(c: Columns, t: ListType): (r: ListStyles)
    ensures forall u :: r.Get(u) == BaseStyle(u) + (if c != One && u == t then [ColumnFragment(c)] else [])
  {
    var base := ListStyles([ListBase, ListSingle], [ListBase, ListSingle, ListGrouped]);
    if c == One then base
    else match t
      case Single => base.(single := base.single + [ColumnFragment(c)])
      case Grouped => base.(grouped := base.grouped + [ColumnFragment(c)])
  }

  /** Which fragment of a list sets up columns, if any. */
  lemma ColumnsOnlyOnActiveList(c: Columns, t: ListType, u: ListType)
    ensures (exists k :: 0 <= k < |ListStylesFor(c, t).Get(u)| && ListStylesFor(c, t).Get(u)[k].MultiColumn?)
            <==> c != One && u == t
    ensures c != One && u == t ==>
              var s := ListStylesFor(c, t).Get(u);
              s[|s| - 1].gap == ColumnGap && s[|s| - 1].count == Count(c)
  {
    var s := ListStylesFor(c, t).Get(u);
    if c != One && u == t {
      assert s[|s| - 1].MultiColumn?;
    }
  }

  // The tree.

  /** The first argument of `createQAHook`: a template string or a plain string. */
  datatype Label = ListItemLabel(index: nat) | TextLabel(text: string)  // `list-item-${index}`, or text

  /** A test id: what `createQAHook(label, context, element)` returns, or a literal id. */
  datatype TestId = QAHook(name: Label, scope: Label, element: string) | Literal(id: string)

  datatype Kind =
    | Root                                                     // `<div className="Amenities">`
    | SingleList                                               // `<ul className="Amenities-list">`
    | GroupedList                                              // `<div className="Amenities-list">`
    | ListItem(key: nat, testId: Option<TestId>, html: string) // `<li>` with its raw HTML
    | GroupBox(key: nat)                                       // the `<div>` of a group
    | GroupTitle(testId: Option<TestId>)                       // `<h5>`
    | GroupItems(testId: Option<TestId>)                       // the `<ul>` of a group

  type AmenityNode = Node<Kind, Fragment>

  /** `[styles.item.base, capitalize && { textTransform: "capitalize" }]`, without the `false`. */
  function ItemStyle(capitalize: bool): (r: seq<Fragment>)
    ensures |r| == (if capitalize then 2 else 1) && r[0] == ItemBase
    ensures Capitalize in r <==> capitalize
  {
    [ItemBase] + (if capitalize then [Capitalize] else [])
  }

  function ItemHook(index: nat, qaHook: bool): (r: Option<TestId>)
    ensures r.Some? <==> qaHook
  {
    if qaHook then Some(QAHook(ListItemLabel(index), ListItemLabel(index), "li")) else None
  }

  /** One `<li>`: keyed by its position, holding the HTML verbatim, with no children of its own. */
  function ItemNode(html: string, index: nat, capitalize: bool, qaHook: bool): (r: AmenityNode)
    ensures r.Element? && r.kind.ListItem? && r.children == []
    ensures r.kind.key == index && r.kind.html == html
    ensures r.kind.testId.Some? <==> qaHook
    ensures |r.style| == (if capitalize then 2 else 1) && r.style[0] == ItemBase
    ensures Capitalize in r.style <==> capitalize
  {
    Element(ListItem(index, ItemHook(index, qaHook), html), ItemStyle(capitalize), [])
  }

  /**
   `getListItems`: one leaf per item, in order, keyed by its position and
   holding the item's HTML verbatim; a test id exactly when `qaHook` is set,
   the capitalize fragment exactly when `capitalize` is.
   */
  function ListItems(items: seq<string>, capitalize: bool, qaHook: bool): (r: seq<AmenityNode>)
    ensures |r| == |items|
    ensures forall k :: 0 <= k < |r| ==>
              && r[k].Element? && r[k].kind.ListItem? && r[k].children == []
              && r[k].kind.key == k && r[k].kind.html == items[k]
              && (r[k].kind.testId.Some? <==> qaHook)
              && |r[k].style| == (if capitalize then 2 else 1) && r[k].style[0] == ItemBase
              && (Capitalize in r[k].style <==> capitalize)
  {
    seq(|items|, k requires 0 <= k < |items| => ItemNode(items[k], k, capitalize, qaHook))
  }

  /**
   One group of `getGroupedItems`: the title, then the group's own items with
   the group's capitalize flag. The items always get test ids, because the
   string `"grouped"` is passed for the hook flag and it is truthy.
   */
  function GroupNode(g: Item, index: nat, qaHook: bool): (r: AmenityNode)
    requires g.Group?
    ensures r.Element? && r.kind == GroupBox(index) && |r.children| == 2
    ensures r.style == [GroupedItemBase]
    ensures r.children[0].Element? && r.children[0].kind.GroupTitle?
    ensures r.children[0].children == [Text(g.title)] && r.children[0].style == [HeadingBase]
    ensures r.children[0].kind.testId.Some? <==> qaHook
    ensures r.children[1].Element? && r.children[1].kind.GroupItems?
    ensures r.children[1].kind.testId.Some? <==> qaHook
    ensures r.children[1].children == ListItems(g.items, g.capitalize, true) && r.children[1].style == [ListBase]
  {
    var titleHook := if qaHook then Some(QAHook(TextLabel(g.title), TextLabel("group-title"), "header")) else None;
    var listHook := if qaHook then Some(Literal("amenities-list")) else None;
    Element(GroupBox(index), [GroupedItemBase],
            [Element(GroupTitle(titleHook), [HeadingBase], [Text(g.title)]),
             Element(GroupItems(listHook), [ListBase], ListItems(g.items, g.capitalize, true))])
  }

  predicate AllGroups(items: seq<Item>) {
    forall k :: 0 <= k < |items| ==> items[k].Group?
  }

  /** `getGroupedItems`: one group node per group, in order, keyed by position. */
  function GroupNodes(groups: seq<Item>, qaHook: bool): (r: seq<AmenityNode>)
    requires AllGroups(groups)
    ensures |r| == |groups|
    ensures forall k :: 0 <= k < |r| ==> r[k].Element? && r[k].kind == GroupBox(k)
    ensures forall k :: 0 <= k < |r| ==> r[k] == GroupNode(groups[k], k, qaHook)
  {
    seq(|groups|, k requires 0 <= k < |groups| => GroupNode(groups[k], k, qaHook))
  }

  function Htmls(items: seq<Item>): (r: seq<string>)
    requires forall k :: 0 <= k < |items| ==> items[k].Amenity?
    ensures |r| == |items| && forall k :: 0 <= k < |r| ==> r[k] == items[k].html
  {
    seq(|items|, k requires 0 <= k < |items| => items[k].html)
  }

  /** The list element for the props: a flat `<ul>` or a `<div>` of groups. */
  function ListComponent(p: Props): (r: AmenityNode)
    requires WellTyped(p)
    ensures r.Element?
    ensures r.style == ListStylesFor(p.columns, p.listType).Get(p.listType)
    ensures |r.children| == |p.items|
  {
    var styles := ListStylesFor(p.columns, p.listType);
    match p.listType
    case Single => Element(SingleList, styles.single, ListItems(Htmls(p.items), false, p.qaHook))
    case Grouped => Element(GroupedList, styles.grouped, GroupNodes(p.items, p.qaHook))
  }

  /** `Amenities(props)`: the container with the list as its only child. */
  function Render(p: Props): (r: AmenityNode)
    requires WellTyped(p)
    ensures r.Element? && r.kind == Root && r.style == [ContainerBase]
    ensures |r.children| == 1 && r.children[0].Element?
    ensures r.children[0].kind == (if p.listType == Single then SingleList else GroupedList)
  {
    Element(Root, [ContainerBase], [ListComponent(p)])
  }

  // Properties of the rendered list.

  /**
   A flat list has one leaf per item, in order: leaf `k` has key `k`, the
   item's HTML, the base item style without capitalization, and a test id
   exactly when `qaHook` is set.
   */
  lemma FlatListShape(p: Props)
    requires WellTyped(p) && p.listType == Single
    ensures var list := Render(p).children[0];
            && |list.children| == |p.items|
            && forall k :: 0 <= k < |p.items| ==>
                 list.children[k] == Element(ListItem(k, ItemHook(k, p.qaHook), p.items[k].html), [ItemBase], [])
  {
  }

  /**
   A grouped list has one group per entry, in order: group `k` holds the
   title, with a test id exactly when `qaHook` is set, then the group's items
   with the group's capitalize flag, every one of them with a test id.
   */
  lemma GroupedListShape(p: Props, k: nat)
    requires WellTyped(p) && p.listType == Grouped && k < |p.items|
    ensures var g := Render(p).children[0].children[k];
            && g.Element? && g.kind == GroupBox(k) && |g.children| == 2
            && g.children[0].Element? && g.children[0].kind.GroupTitle?
            && g.children[0].children == [Text(p.items[k].title)]
            && (g.children[0].kind.testId.Some? <==> p.qaHook)
            && g.children[1].Element? && g.children[1].kind.GroupItems?
            && (g.children[1].kind.testId.Some? <==> p.qaHook)
            && g.children[1].children == ListItems(p.items[k].items, p.items[k].capitalize, true)
            && forall j :: 0 <= j < |g.children[1].children| ==> g.children[1].children[j].kind.testId.Some?
  {
  }

  /** Without items the list is empty, in either mode. */
  lemma NoItemsNoChildren(p: Props)
    requires p.items == []
    ensures WellTyped(p) && Render(p).children[0].children == []
  {
  }

  /** The default props render an empty one-column flat list. */
  lemma DefaultRender()
    ensures WellTyped(DefaultProps)
    ensures Render(DefaultProps) == Element(Root, [ContainerBase], [Element(SingleList, [ListBase, ListSingle], [])])
  {
  }

  // Contents in document order.

  /** The HTML a node displays itself. */
  function ContentOf(k: Kind): seq<string> {
    if k.ListItem? then [k.html] else []
  }

  /** Every item of the props, groups flattened in order. */
  function AllContent(items: seq<Item>): seq<string>
    decreases |items|
  {
    if items == [] then []
    else
      var last := items[|items| - 1];
      AllContent(items[..|items| - 1]) + (if last.Amenity? then [last.html] else last.items)
  }

  lemma {:induction false} ListItemsContent(items: seq<string>, capitalize: bool, qaHook: bool)
    ensures CollectAll(ListItems(items, capitalize, qaHook), ContentOf) == items
    decreases |items|
  {
    if items != [] {
      var n := |items| - 1;
      var r := ListItems(items, capitalize, qaHook);
      assert r[..n] == ListItems(items[..n], capitalize, qaHook);
      assert r == r[..n] + [r[n]];
      ListItemsContent(items[..n], capitalize, qaHook);
      CollectAllAppend(r[..n], [r[n]], ContentOf);
      CollectAllSingleton(r[n], ContentOf);
      assert items == items[..n] + [items[n]];
    }
  }

  lemma GroupContent(g: Item, index: nat, qaHook: bool)
    requires g.Group?
    ensures Collect(GroupNode(g, index, qaHook), ContentOf) == g.items
  {
    var n := GroupNode(g, index, qaHook);
    var title, list := n.children[0], n.children[1];
    ListItemsContent(g.items, g.capitalize, true);
    assert CollectAll(title.children, ContentOf) == [];
    CollectElement(title.kind, title.style, title.children, ContentOf);
    CollectElement(list.kind, list.style, list.children, ContentOf);
    assert n.children == [title] + [list];
    CollectAllAppend([title], [list], ContentOf);
    CollectAllSingleton(title, ContentOf);
    CollectAllSingleton(list, ContentOf);
    CollectElement(n.kind, n.style, n.children, ContentOf);
  }

  lemma {:induction false} GroupNodesContent(groups: seq<Item>, qaHook: bool)
    requires AllGroups(groups)
    ensures CollectAll(GroupNodes(groups, qaHook), ContentOf) == AllContent(groups)
    decreases |groups|
  {
    if groups != [] {
      var n := |groups| - 1;
      var r := GroupNodes(groups, qaHook);
      assert r[..n] == GroupNodes(groups[..n], qaHook);
      assert r == r[..n] + [r[n]];
      GroupNodesContent(groups[..n], qaHook);
      CollectAllAppend(r[..n], [r[n]], ContentOf);
      CollectAllSingleton(r[n], ContentOf);
      GroupContent(groups[n], n, qaHook);
    }
  }

  lemma {:induction false} HtmlsContent(items: seq<Item>)
    requires forall k :: 0 <= k < |items| ==> items[k].Amenity?
    ensures Htmls(items) == AllContent(items)
    decreases |items|
  {
    if items != [] {
      var n := |items| - 1;
      HtmlsContent(items[..n]);
      assert Htmls(items) == Htmls(items[..n]) + [items[n].html];
    }
  }

  lemma ListContent(p: Props)
    requires WellTyped(p)
    ensures CollectAll(ListComponent(p).children, ContentOf) == AllContent(p.items)
  {
    if p.listType == Single {
      assert ListComponent(p).children == ListItems(Htmls(p.items), false, p.qaHook);
      ListItemsContent(Htmls(p.items), false, p.qaHook);
      HtmlsContent(p.items);
    } else {
      assert ListComponent(p).children == GroupNodes(p.items, p.qaHook);
      GroupNodesContent(p.items, p.qaHook);
    }
  }

  /** A wrapper that shows nothing itself shows what its only child shows. */
  lemma WrapperContent(k: Kind, style: seq<Fragment>, n: AmenityNode)
    requires ContentOf(k) == [] && n.Element? && ContentOf(n.kind) == []
    ensures Collect(Element(k, style, [n]), ContentOf) == CollectAll(n.children, ContentOf)
  {
    CollectElement(k, style, [n], ContentOf);
    CollectAllSingleton(n, ContentOf);
    CollectElement(n.kind, n.style, n.children, ContentOf);
  }

  /**
   The rendered list shows every item's HTML exactly once, in input order, in
   both modes; grouped items follow their group's order.
   */
  lemma RenderedContent(p: Props)
    requires WellTyped(p)
    ensures Collect(Render(p), ContentOf) == AllContent(p.items)
  {
    ListContent(p);
    WrapperContent(Root, [ContainerBase], ListComponent(p));
  }
}

=== FILE: markup.dfy ===
/**
 The abstract rendered tree shared by both components: an element carries a
 kind (the component or tag together with its attributes), an ordered list of
 style fragments (merged left to right, later fragments winning) and its
 children in document order; text nodes carry the string they display.
 */
module Markup {

  /** An optional value, used for attributes that may be absent (`null` or `undefined`). */
  datatype Option<+T> = None | Some(value: T)

  datatype Node<K, F> =
    | Element(kind: K, style: seq<F>, children: seq<Node<K, F>>)
    | Text(content: string)

  /** The JSX child `{cond && <X />}`: the element when `cond` holds, no child otherwise. */
  function When<K, F>(cond: bool, n: Node<K, F>): (r: seq<Node<K, F>>)
    ensures |r| <= 1
    ensures |r| == 1 <==> cond
    ensures cond ==> r[0] == n
  {
    if cond then [n] else []
  }

  /** Pre-order walk: what `f` reports for each element kind, in document order. */
  function Collect<K, F, B>(n: Node<K, F>, f: K -> seq<B>): seq<B>
    decreases n
  {
    match n
    case Text(_) => []
    case Element(k, _, cs) => f(k) + CollectAll(cs, f)
  }

  function CollectAll<K, F, B>(ns: seq<Node<K, F>>, f: K -> seq<B>): seq<B>
    decreases ns
  {
    if ns == [] then [] else Collect(ns[0], f) + CollectAll(ns[1..], f)
  }

  /** Walking a concatenation of siblings walks each part in turn. */
  lemma {:induction false} CollectAllAppend<K, F, B>(a: seq<Node<K, F>>, b: seq<Node<K, F>>, f: K -> seq<B>)
    ensures CollectAll(a + b, f) == CollectAll(a, f) + CollectAll(b, f)
    decreases |a|
  {
    if a == [] {
      assert a + b == b;
    } else {
      assert (a + b)[1..] == a[1..] + b;
      CollectAllAppend(a[1..], b, f);
    }
  }

  lemma CollectElement<K, F, B>(k: K, style: seq<F>, cs: seq<Node<K, F>>, f: K -> seq<B>)
    ensures Collect(Element(k, style, cs), f) == f(k) + CollectAll(cs, f)
  {
  }

  lemma CollectAllSingleton<K, F, B>(n: Node<K, F>, f: K -> seq<B>)
    ensures CollectAll([n], f) == Collect(n, f)
  {
    assert [n][1..] == [];
  }
}

=== FILE: profile_header.dfy ===
/**
 The profile header (`src/components/profileHeader/index.jsx`): a header
 assembled from optional blocks (avatar, location, name, website link, intro,
 tag list), each present only when its input is, always in the same order, with
 styles picked from per-alignment tables.
 */
module ProfileHeader {
  import opened Markup
  import Strings
  import UrlPattern

  datatype Alignment = Center | Left

  /** The style tables of the component that are keyed on alignment. */
  datatype StyleTable =
    | HeaderStyles
    | FlexContainerStyles
    | AvatarStyles
    | TextContainerStyles
    | LocationLabelStyles
    | WebsiteStyles
    | IntroStyles
    | TagListStyles

  /** Only the website and intro tables have a `default` entry. */
  predicate HasDefault(t: StyleTable) {
    t == WebsiteStyles || t == IntroStyles
  }

  /** Style fragments are opaque: a fragment names the table entry it comes from. */
  datatype Fragment =
    | Variant(table: StyleTable, alignment: Alignment)  // `styles.<table>[alignment]`
    | Default(table: StyleTable)                        // `styles.<table>.default`
    | HeadingReset                                      // `styles.heading`
    | TextBodySmall                                     // `styles.textBodySmall`
    | Override(id: nat)                                 // the caller's `style` prop

  /**
   A table looked up by alignment: the `default` entry, when the table has one,
   and then the entry for the alignment, so that the latter wins.
   */
  function Resolve(t: StyleTable, a: Alignment): (r: seq<Fragment>)
    ensures 1 <= |r| <= 2 && r[|r| - 1] == Variant(t, a)
    ensures |r| == 2 <==> HasDefault(t)
    ensures |r| == 2 ==> r[0] == Default(t)
  {
    (if HasDefault(t) then [Default(t)] else []) + [Variant(t, a)]
  }

  datatype FontSize = BodySmall | Heading7

  /** Each element kind carries the attributes the component passes to it. */
  datatype Kind =
    | HeaderBox                                                  // `<header className="ProfileHeader">`
    | FlexBox                                                    // the outer `<div>`
    | AvatarImage(src: string, alt: string, size: nat, className: string)
    | TextBox                                                    // the inner `<div>`
    | LocationLabel
    | NameHeading(level: nat, size: nat, weight: string)
    | WebsiteParagraph                                           // `<p>`
    | Link(href: string, target: string, rel: string)            // `<a>`
    | Intro(maxLines: nat, fontSize: FontSize, lineHeight: nat)  // `<ProfileIntro>`
    | TagList(limit: Option<real>, rows: nat)
    | Tag(key: string)

  type HeaderNode = Node<Kind, Fragment>

  datatype Props = Props(
    name: string,
    intro: string,
    avatarSrc: string,
    website: string,
    location: string,
    interests: seq<string>,
    interestsLimit: Option<real>,
    alignment: Alignment,
    style: Option<nat>)

  /** The props of a header given only its required `name`. */
  function WithDefaults(name: string): (p: Props)
    ensures p.name == name && p.alignment == Center
    ensures p.intro == p.website == p.avatarSrc == p.location == "" && p.interests == []
    ensures p.interestsLimit.None? && p.style.None?
  {
    Props(name, "", "", "", "", [], None, Center, None)
  }

  /** Where hostnames come from: a browser document can parse a URL, a headless environment cannot. */
  datatype Environment = Headless | Browser(hostnameOf: string -> string)

  /** `urlParser(url).hostname`: empty without a document, otherwise what the document's URL parser reports. */
  function Hostname(env: Environment, url: string): (r: string)
    ensures env.Headless? ==> r == ""
    ensures env.Browser? ==> r == env.hostnameOf(url)
  {
    match env
    case Headless => ""
    case Browser(hostnameOf) => hostnameOf(url)
  }

  /** `urlParser(url).hostname.replace("www.", "")`: the hostname without its first `www.`. */
  function LinkText(env: Environment, url: string): (r: string)
    ensures env.Headless? ==> r == ""
    ensures (forall j: nat :: !Strings.OccursAt(Hostname(env, url), "www.", j)) ==> r == Hostname(env, url)
    ensures (exists j: nat :: Strings.OccursAt(Hostname(env, url), "www.", j)) ==>
              exists k: nat :: k <= |r| && Strings.FirstOccurrence(Hostname(env, url), "www.", k)
                               && Hostname(env, url) == r[..k] + "www." + r[k..]
  {
    Strings.ReplaceFirst(Hostname(env, url), "www.", "")
  }

  const ParagraphLineHeight: nat := 24

  /** The intro font size: body-small when centred, heading-7 when left-aligned. */
  function IntroFontSize(a: Alignment): (r: FontSize)
    ensures r == BodySmall <==> a == Center
    ensures r == Heading7 <==> a == Left
  {
    match a
    case Center => BodySmall
    case Left => Heading7
  }

  function AvatarBlock(p: Props): (r: seq<HeaderNode>)
    ensures |r| == 1 <==> p.avatarSrc != ""
    ensures |r| <= 1
    ensures |r| == 1 ==> r[0].Element? && r[0].kind.AvatarImage? && r[0].kind.src == p.avatarSrc
    ensures |r| == 1 ==> r[0].style == [Variant(AvatarStyles, p.alignment)]
    ensures |r| == 1 ==> r[0].kind == AvatarImage(p.avatarSrc, "Avatar for user " + p.name, 80, "ProfileHeader-avatar")
  {
    When(p.avatarSrc != "",
         Element(AvatarImage(p.avatarSrc, "Avatar for user " + p.name, 80, "ProfileHeader-avatar"),
                 Resolve(AvatarStyles, p.alignment), []))
  }

  function LocationBlock(p: Props): (r: seq<HeaderNode>)
    ensures |r| == 1 <==> p.location != ""
    ensures |r| <= 1
    ensures |r| == 1 ==> r[0].Element? && r[0].kind == LocationLabel && r[0].children == [Text(p.location)]
    ensures |r| == 1 ==> r[0].style == [Variant(LocationLabelStyles, p.alignment)]
  {
    When(p.location != "",
         Element(LocationLabel, Resolve(LocationLabelStyles, p.alignment), [Text(p.location)]))
  }

  function NameBlock(p: Props): (r: seq<HeaderNode>)
    ensures |r| == 1 <==> p.name != ""
    ensures |r| <= 1
    ensures |r| == 1 ==> r[0].Element? && r[0].kind.NameHeading? && r[0].children == [Text(p.name)]
    ensures |r| == 1 ==> r[0].kind == NameHeading(1, 5, "medium") && r[0].style == [HeadingReset]
  {
    When(p.name != "", Element(NameHeading(1, 5, "medium"), [HeadingReset], [Text(p.name)]))
  }

  /**
   The website paragraph, shown when the website is non-empty and passed the
   URL check (`websiteValid`); its link points at the website exactly as given
   and shows `linkText`.
   */
  function WebsiteBlock(p: Props, websiteValid: bool, linkText: string): (r: seq<HeaderNode>)
    ensures |r| <= 1
    ensures |r| == 1 <==> p.website != "" && websiteValid
    ensures |r| == 1 ==> r[0].Element? && r[0].kind == WebsiteParagraph
    ensures |r| == 1 ==> r[0].style == [TextBodySmall, Default(WebsiteStyles), Variant(WebsiteStyles, p.alignment)]
    ensures |r| == 1 ==> |r[0].children| == 1 && r[0].children[0].Element?
    ensures |r| == 1 ==> r[0].children[0].kind == Link(p.website, "_blank", "noopener noreferrer")
    ensures |r| == 1 ==> r[0].children[0].children == [Text(linkText)]
  {
    When(p.website != "" && websiteValid,
         Element(WebsiteParagraph,
                 [TextBodySmall] + Resolve(WebsiteStyles, p.alignment),
                 [Element(Link(p.website, "_blank", "noopener noreferrer"), [],
                          [Text(linkText)])]))
  }

  /** At most three lines of intro, sized by alignment, with a 24px line height. */
  function IntroBlock(p: Props): (r: seq<HeaderNode>)
    ensures |r| <= 1
    ensures |r| == 1 <==> p.intro != ""
    ensures |r| == 1 ==> r[0].Element? && r[0].kind.Intro? && r[0].children == [Text(p.intro)]
    ensures |r| == 1 ==> r[0].kind.maxLines == 3 && r[0].kind.lineHeight == 24
    ensures |r| == 1 ==> (r[0].kind.fontSize == BodySmall <==> p.alignment == Center)
    ensures |r| == 1 ==> r[0].style == [TextBodySmall, Default(IntroStyles), Variant(IntroStyles, p.alignment)]
  {
    When(p.intro != "",
         Element(Intro(3, IntroFontSize(p.alignment), ParagraphLineHeight),
                 [TextBodySmall] + Resolve(IntroStyles, p.alignment),
                 [Text(p.intro)]))
  }

  /** One tag per interest, in order. */
  function Tags(interests: seq<string>): (r: seq<HeaderNode>)
    ensures |r| == |interests|
    ensures forall k :: 0 <= k < |r| ==> r[k] == Element(Tag(interests[k]), [], [Text(interests[k])])
  {
    seq(|interests|, k requires 0 <= k < |interests| => Element(Tag(interests[k]), [], [Text(interests[k])]))
  }

  /** The tag list, when there are interests: ten rows at most, the caller's limit passed through. */
  function TagListBlock(p: Props): (r: seq<HeaderNode>)
    ensures |r| <= 1
    ensures |r| == 1 <==> |p.interests| > 0
    ensures |r| == 1 ==> r[0].Element? && r[0].kind == TagList(p.interestsLimit, 10)
    ensures |r| == 1 ==> r[0].style == [Variant(TagListStyles, p.alignment)]
    ensures |r| == 1 ==> |r[0].children| == |p.interests|
    ensures |r| == 1 ==> forall k :: 0 <= k < |p.interests| ==>
                            r[0].children[k] == Element(Tag(p.interests[k]), [], [Text(p.interests[k])])
  {
    When(|p.interests| > 0,
         Element(TagList(p.interestsLimit, 10), Resolve(TagListStyles, p.alignment), Tags(p.interests)))
  }

  function TextContainer(p: Props, websiteValid: bool, linkText: string): HeaderNode {
    Element(TextBox, Resolve(TextContainerStyles, p.alignment),
            LocationBlock(p) + NameBlock(p) + WebsiteBlock(p, websiteValid, linkText))
  }

  function FlexContainer(p: Props, text: HeaderNode): HeaderNode {
    Element(FlexBox, Resolve(FlexContainerStyles, p.alignment), AvatarBlock(p) + [text])
  }

  /** 1 when `b` holds, else 0: the number of children a `{b && <X/>}` slot contributes. */
  function Ind(b: bool): nat {
    if b then 1 else 0
  }

  /** The `style` array of the header: the alignment entry, then the caller's override if any. */
  function HeaderStyle(p: Props): (r: seq<Fragment>)
    ensures |r| >= 1 && r[0] == Variant(HeaderStyles, p.alignment)
    ensures p.style.None? ==> |r| == 1
    ensures p.style.Some? ==> |r| == 2 && r[1] == Override(p.style.value)
  {
    [Variant(HeaderStyles, p.alignment)] + (match p.style case Some(id) => [Override(id)] case None => [])
  }

  /** The header tree, given the outcome of the URL check and the link text of the website. */
  function Assemble(p: Props, websiteValid: bool, linkText: string): (r: HeaderNode)
    ensures r.Element? && r.kind == HeaderBox && r.style == HeaderStyle(p)
  {
    Element(HeaderBox, HeaderStyle(p),
            [FlexContainer(p, TextContainer(p, websiteValid, linkText))] + IntroBlock(p) + TagListBlock(p))
  }

  /** `ProfileHeader.render()`: the header for the props, checking and shortening the website itself. */
  function Render(env: Environment, p: Props): HeaderNode {
    Assemble(p, UrlPattern.ValidateUrl(p.website), LinkText(env, p.website))
  }

  /**
   The inner box holds the location label, the name heading and the website
   paragraph, each only when shown, the label first and the paragraph last.
   */
  lemma TextLayout(p: Props, v: bool, t: string)
    ensures var r := TextContainer(p, v, t);
            && r.Element? && r.kind == TextBox && r.style == Resolve(TextContainerStyles, p.alignment)
            && |r.children| == Ind(p.location != "") + Ind(p.name != "") + Ind(p.website != "" && v)
            && (p.location != "" ==> r.children[0].Element? && r.children[0].kind == LocationLabel)
            && (p.website != "" && v ==>
                  r.children[|r.children| - 1].Element? && r.children[|r.children| - 1].kind == WebsiteParagraph)
  {
    var location, name, website := LocationBlock(p), NameBlock(p), WebsiteBlock(p, v, t);
    var cs := location + name + website;
    if p.location != "" {
      assert cs[0] == location[0];
    }
    if p.website != "" && v {
      assert cs[|cs| - 1] == website[0];
    }
  }

  /** The outer box holds the avatar, when shown, beside the inner box, which always comes last. */
  lemma FlexLayout(p: Props, text: HeaderNode)
    ensures var r := FlexContainer(p, text);
            && r.Element? && r.kind == FlexBox && r.style == Resolve(FlexContainerStyles, p.alignment)
            && |r.children| == Ind(p.avatarSrc != "") + 1
            && r.children[|r.children| - 1] == text
            && (p.avatarSrc != "" ==> r.children[0].Element? && r.children[0].kind.AvatarImage?)
  {
  }

  /** A fixed first child followed by two optional slots. */
  lemma OptionalSlots(first: HeaderNode, a: seq<HeaderNode>, b: seq<HeaderNode>)
    requires |a| <= 1 && |b| <= 1
    ensures var cs := [first] + a + b;
            && |cs| == 1 + |a| + |b| && cs[0] == first
            && (|a| == 1 ==> cs[1] == a[0])
            && (|b| == 1 ==> cs[|cs| - 1] == b[0])
  {
    var cs := [first] + a + b;
    if |a| == 1 {
      assert cs[1] == a[0];
    }
    if |b| == 1 {
      assert cs[|cs| - 1] == b[0];
    }
  }

  /**
   The header holds the outer box first, then the intro when shown, then the
   tag list when shown.
   */
  lemma AssembledLayout(p: Props, v: bool, t: string)
    ensures var r := Assemble(p, v, t);
            && r.Element? && |r.children| == 1 + Ind(p.intro != "") + Ind(|p.interests| > 0)
            && r.children[0] == FlexContainer(p, TextContainer(p, v, t))
            && (p.intro != "" ==> r.children[1].Element? && r.children[1].kind.Intro?)
            && (|p.interests| > 0 ==>
                  r.children[|r.children| - 1].Element? && r.children[|r.children| - 1].kind.TagList?)
  {
    var flex, intro, tags := FlexContainer(p, TextContainer(p, v, t)), IntroBlock(p), TagListBlock(p);
    assert Assemble(p, v, t).children == [flex] + intro + tags;
    OptionalSlots(flex, intro, tags);
  }

  /**
   The nesting of a header tree: the flex box comes first and holds the
   avatar, when shown, and then the text box; the text box holds one child per
   shown location, name and website; the intro and tag list follow the flex
   box when shown.
   */
  ghost predicate Nesting(r: HeaderNode, p: Props, websiteShown: bool) {
    && r.Element? && |r.children| == 1 + Ind(p.intro != "") + Ind(|p.interests| > 0)
    && var flex := r.children[0];
    && flex.Element? && flex.kind == FlexBox && |flex.children| == Ind(p.avatarSrc != "") + 1
    && var text := flex.children[|flex.children| - 1];
    && text.Element? && text.kind == TextBox
    && |text.children| == Ind(p.location != "") + Ind(p.name != "") + Ind(websiteShown)
    && (p.avatarSrc != "" ==> flex.children[0].Element? && flex.children[0].kind.AvatarImage?)
    && (p.intro != "" ==> r.children[1].Element? && r.children[1].kind.Intro?)
    && (|p.interests| > 0 ==> r.children[|r.children| - 1].Element? && r.children[|r.children| - 1].kind.TagList?)
  }

  /** `Assemble`'s tree has that nesting, for any validity verdict `v`. */
  lemma AssembledNesting(p: Props, v: bool, t: string)
    ensures Nesting(Assemble(p, v, t), p, p.website != "" && v)
  {
    AssembledLayout(p, v, t);
    FlexLayout(p, TextContainer(p, v, t));
    TextLayout(p, v, t);
  }

  /**
   The nesting of a rendered header: the avatar sits beside an inner box that
   holds the location, name and website, and the intro and tag list follow
   the outer box; each slot is filled only when its block is due, the website
   only when the URL pattern occurs in it.
   */
  lemma RenderedLayout(env: Environment, p: Props)
    ensures Nesting(Render(env, p), p, p.website != "" && UrlPattern.OccursIn(p.website))
  {
    var v, t := UrlPattern.ValidateUrl(p.website), LinkText(env, p.website);
    assert v == UrlPattern.OccursIn(p.website);
    AssembledNesting(p, v, t);
    assert Render(env, p) == Assemble(p, v, t);
  }

  /**
   The rendered header's style is the alignment entry followed by the
   caller's `style`, so the caller's override wins.
   */
  lemma RenderedStyle(env: Environment, p: Props)
    ensures var r := Render(env, p);
            && r.Element? && r.kind == HeaderBox && |r.style| >= 1
            && r.style[0] == Variant(HeaderStyles, p.alignment)
            && (p.style.Some? ==> r.style[|r.style| - 1] == Override(p.style.value))
            && (p.style.None? ==> |r.style| == 1)
  {
    var r := Render(env, p);
    assert r.Element? && r.style == HeaderStyle(p);
  }

  // The outline of a header: which blocks it shows, in document order.

  datatype Block = AvatarPart | LocationPart | NamePart | WebsitePart | IntroPart | TagListPart

  /** The block an element kind stands for, if any. */
  function BlockOf(k: Kind): seq<Block> {
    match k
    case AvatarImage(_, _, _, _) => [AvatarPart]
    case LocationLabel => [LocationPart]
    case NameHeading(_, _, _) => [NamePart]
    case WebsiteParagraph => [WebsitePart]
    case Intro(_, _, _) => [IntroPart]
    case TagList(_, _) => [TagListPart]
    case _ => []
  }

  /** The blocks found in a tree, in document order. */
  function Outline(n: HeaderNode): seq<Block> {
    Collect(n, BlockOf)
  }

  /** The fixed order of the blocks. */
  function Rank(b: Block): nat {
    match b
    case AvatarPart => 0
    case LocationPart => 1
    case NamePart => 2
    case WebsitePart => 3
    case IntroPart => 4
    case TagListPart => 5
  }

  /** Whether a block is shown, given the props and the outcome of the URL check. */
  predicate Shown(p: Props, websiteValid: bool, b: Block) {
    match b
    case AvatarPart => p.avatarSrc != ""
    case LocationPart => p.location != ""
    case NamePart => p.name != ""
    case WebsitePart => p.website != "" && websiteValid
    case IntroPart => p.intro != ""
    case TagListPart => |p.interests| > 0
  }

  /** When each block is due, stated from the props alone. */
  ghost predicate Present(p: Props, b: Block) {
    Shown(p, UrlPattern.OccursIn(p.website), b)
  }

  /** The blocks of `bs` that are shown, in the order of `bs`. */
  function Due(p: Props, websiteValid: bool, bs: seq<Block>): seq<Block>
    decreases |bs|
  {
    if bs == [] then [] else (if Shown(p, websiteValid, bs[0]) then [bs[0]] else []) + Due(p, websiteValid, bs[1..])
  }

  const AllBlocks: seq<Block> := [AvatarPart, LocationPart, NamePart, WebsitePart, IntroPart, TagListPart]

  lemma OutlineOfBlocks(ns: seq<HeaderNode>, b: Block)
    requires |ns| <= 1
    requires |ns| == 1 ==> ns[0].Element? && BlockOf(ns[0].kind) == [b]
    requires |ns| == 1 ==> CollectAll(ns[0].children, BlockOf) == []
    ensures CollectAll(ns, BlockOf) == if |ns| == 1 then [b] else []
  {
    if |ns| == 1 {
      assert ns[1..] == [];
    }
  }

  lemma NoBlocksInTexts(ns: seq<HeaderNode>)
    requires forall k :: 0 <= k < |ns| ==> ns[k].Text?
    ensures CollectAll(ns, BlockOf) == []
    decreases |ns|
  {
    if ns != [] {
      NoBlocksInTexts(ns[1..]);
    }
  }

  lemma NoBlocksInTags(interests: seq<string>)
    ensures CollectAll(Tags(interests), BlockOf) == []
    decreases |interests|
  {
    var ts := Tags(interests);
    if ts != [] {
      assert ts[1..] == Tags(interests[1..]);
      NoBlocksInTexts(ts[0].children);
      NoBlocksInTags(interests[1..]);
    }
  }

  lemma DueCons(p: Props, v: bool, b: Block, bs: seq<Block>)
    ensures Due(p, v, [b] + bs) == (if Shown(p, v, b) then [b] else []) + Due(p, v, bs)
  {
    assert ([b] + bs)[1..] == bs;
  }

  lemma AvatarOutline(p: Props, v: bool)
    ensures CollectAll(AvatarBlock(p), BlockOf) == if Shown(p, v, AvatarPart) then [AvatarPart] else []
  {
    OutlineOfBlocks(AvatarBlock(p), AvatarPart);
  }

  lemma LocationOutline(p: Props, v: bool)
    ensures CollectAll(LocationBlock(p), BlockOf) == if Shown(p, v, LocationPart) then [LocationPart] else []
  {
    NoBlocksInTexts([Text(p.location)]);
    OutlineOfBlocks(LocationBlock(p), LocationPart);
  }

  lemma NameOutline(p: Props, v: bool)
    ensures CollectAll(NameBlock(p), BlockOf) == if Shown(p, v, NamePart) then [NamePart] else []
  {
    NoBlocksInTexts([Text(p.name)]);
    OutlineOfBlocks(NameBlock(p), NamePart);
  }

  lemma WebsiteOutline(p: Props, v: bool, t: string)
    ensures CollectAll(WebsiteBlock(p, v, t), BlockOf) == if Shown(p, v, WebsitePart) then [WebsitePart] else []
  {
    var website := WebsiteBlock(p, v, t);
    if |website| == 1 {
      NoBlocksInTexts(website[0].children[0].children);
      CollectAllSingleton(website[0].children[0], BlockOf);
    }
    OutlineOfBlocks(website, WebsitePart);
  }

  lemma IntroOutline(p: Props, v: bool)
    ensures CollectAll(IntroBlock(p), BlockOf) == if Shown(p, v, IntroPart) then [IntroPart] else []
  {
    NoBlocksInTexts([Text(p.intro)]);
    OutlineOfBlocks(IntroBlock(p), IntroPart);
  }

  lemma TagListOutline(p: Props, v: bool)
    ensures CollectAll(TagListBlock(p), BlockOf) == if Shown(p, v, TagListPart) then [TagListPart] else []
  {
    NoBlocksInTags(p.interests);
    OutlineOfBlocks(TagListBlock(p), TagListPart);
  }

  lemma CollectThree(a: seq<HeaderNode>, b: seq<HeaderNode>, c: seq<HeaderNode>)
    ensures CollectAll(a + b + c, BlockOf) == CollectAll(a, BlockOf) + CollectAll(b, BlockOf) + CollectAll(c, BlockOf)
  {
    CollectAllAppend(a + b, c, BlockOf);
    CollectAllAppend(a, b, BlockOf);
  }

  lemma DueThree(p: Props, v: bool, a: Block, b: Block, c: Block)
    ensures Due(p, v, [a, b, c]) == (if Shown(p, v, a) then [a] else []) + (if Shown(p, v, b) then [b] else [])
                                    + (if Shown(p, v, c) then [c] else [])
  {
    DueCons(p, v, a, [b, c]);
    DueCons(p, v, b, [c]);
    DueCons(p, v, c, []);
  }

  /** An element without a block of its own, holding three groups of children, shows their blocks in turn. */
  lemma ContainerOfThree(k: Kind, style: seq<Fragment>, a: seq<HeaderNode>, b: seq<HeaderNode>, c: seq<HeaderNode>,
                         p: Props, v: bool, x: Block, y: Block, z: Block)
    requires BlockOf(k) == []
    requires CollectAll(a, BlockOf) == if Shown(p, v, x) then [x] else []
    requires CollectAll(b, BlockOf) == if Shown(p, v, y) then [y] else []
    requires CollectAll(c, BlockOf) == if Shown(p, v, z) then [z] else []
    ensures Collect(Element(k, style, a + b + c), BlockOf) == Due(p, v, [x, y, z])
  {
    CollectElement(k, style, a + b + c, BlockOf);
    CollectThree(a, b, c);
    DueThree(p, v, x, y, z);
  }

  lemma TextOutline(p: Props, v: bool, t: string)
    ensures Collect(TextContainer(p, v, t), BlockOf) == Due(p, v, [LocationPart, NamePart, WebsitePart])
  {
    LocationOutline(p, v);
    NameOutline(p, v);
    WebsiteOutline(p, v, t);
    ContainerOfThree(TextBox, Resolve(TextContainerStyles, p.alignment), LocationBlock(p), NameBlock(p), WebsiteBlock(p, v, t),
                     p, v, LocationPart, NamePart, WebsitePart);
  }

  /** An element without a block of its own shows the blocks of its two groups of children in turn. */
  lemma ContainerOfTwo(k: Kind, style: seq<Fragment>, a: seq<HeaderNode>, b: seq<HeaderNode>, la: seq<Block>, lb: seq<Block>)
    requires BlockOf(k) == []
    requires CollectAll(a, BlockOf) == la && CollectAll(b, BlockOf) == lb
    ensures Collect(Element(k, style, a + b), BlockOf) == la + lb
  {
    CollectElement(k, style, a + b, BlockOf);
    CollectAllAppend(a, b, BlockOf);
  }

  /** The avatar group followed by the text container shows the avatar block, then the text blocks. */
  lemma AvatarThenText(k: Kind, style: seq<Fragment>, a: seq<HeaderNode>, b: seq<HeaderNode>, p: Props, v: bool)
    requires BlockOf(k) == []
    requires CollectAll(a, BlockOf) == if Shown(p, v, AvatarPart) then [AvatarPart] else []
    requires CollectAll(b, BlockOf) == Due(p, v, [LocationPart, NamePart, WebsitePart])
    ensures Collect(Element(k, style, a + b), BlockOf) == Due(p, v, [AvatarPart, LocationPart, NamePart, WebsitePart])
  {
    ContainerOfTwo(k, style, a, b, CollectAll(a, BlockOf), CollectAll(b, BlockOf));
    DueCons(p, v, AvatarPart, [LocationPart, NamePart, WebsitePart]);
  }

  lemma FlexOutline(p: Props, v: bool, text: HeaderNode)
    requires Collect(text, BlockOf) == Due(p, v, [LocationPart, NamePart, WebsitePart])
    ensures Collect(FlexContainer(p, text), BlockOf) == Due(p, v, [AvatarPart, LocationPart, NamePart, WebsitePart])
  {
    AvatarOutline(p, v);
    CollectAllSingleton(text, BlockOf);
    AvatarThenText(FlexBox, Resolve(FlexContainerStyles, p.alignment), AvatarBlock(p), [text], p, v);
  }

  /** Three groups of siblings, the last two holding at most one block each. */
  lemma ChildrenOfThree(a: seq<HeaderNode>, b: seq<HeaderNode>, c: seq<HeaderNode>, la: seq<Block>,
                        p: Props, v: bool, y: Block, z: Block)
    requires CollectAll(a, BlockOf) == la
    requires CollectAll(b, BlockOf) == if Shown(p, v, y) then [y] else []
    requires CollectAll(c, BlockOf) == if Shown(p, v, z) then [z] else []
    ensures CollectAll(a + b + c, BlockOf) == la + Due(p, v, [y, z])
  {
    CollectThree(a, b, c);
    DueTwo(p, v, y, z);
  }

  lemma DueTwo(p: Props, v: bool, y: Block, z: Block)
    ensures Due(p, v, [y, z]) == (if Shown(p, v, y) then [y] else []) + (if Shown(p, v, z) then [z] else [])
  {
    DueCons(p, v, y, [z]);
    DueCons(p, v, z, []);
  }

  lemma HeaderChildrenOutline(p: Props, v: bool, t: string)
    ensures CollectAll([FlexContainer(p, TextContainer(p, v, t))] + IntroBlock(p) + TagListBlock(p), BlockOf)
            == Due(p, v, [AvatarPart, LocationPart, NamePart, WebsitePart]) + Due(p, v, [IntroPart, TagListPart])
  {
    var flex := FlexContainer(p, TextContainer(p, v, t));
    TextOutline(p, v, t);
    FlexOutline(p, v, TextContainer(p, v, t));
    CollectAllSingleton(flex, BlockOf);
    IntroOutline(p, v);
    TagListOutline(p, v);
    ChildrenOfThree([flex], IntroBlock(p), TagListBlock(p), Due(p, v, [AvatarPart, LocationPart, NamePart, WebsitePart]),
                    p, v, IntroPart, TagListPart);
  }

  lemma AssembleOutline(p: Props, v: bool, t: string)
    ensures Outline(Assemble(p, v, t)) == Due(p, v, AllBlocks)
  {
    HeaderChildrenOutline(p, v, t);
    DueOfAll(p, v);
    CollectElement(HeaderBox, HeaderStyle(p), [FlexContainer(p, TextContainer(p, v, t))] + IntroBlock(p) + TagListBlock(p), BlockOf);
  }

  lemma DueOfAll(p: Props, v: bool)
    ensures Due(p, v, AllBlocks) == Due(p, v, [AvatarPart, LocationPart, NamePart, WebsitePart]) + Due(p, v, [IntroPart, TagListPart])
  {
    assert AllBlocks == [AvatarPart, LocationPart, NamePart, WebsitePart] + [IntroPart, TagListPart];
    DueAppend(p, v, [AvatarPart, LocationPart, NamePart, WebsitePart], [IntroPart, TagListPart]);
  }

  /**
   The header shows exactly the blocks that are due, in the fixed order
   avatar, location, name, website, intro, tag list; the website counts as
   due when the URL pattern occurs in it.
   */
  lemma OutlineOfRender(env: Environment, p: Props)
    ensures Outline(Render(env, p)) == Due(p, UrlPattern.OccursIn(p.website), AllBlocks)
  {
    AssembleOutline(p, UrlPattern.ValidateUrl(p.website), LinkText(env, p.website));
  }

  lemma {:induction false} DueAppend(p: Props, v: bool, a: seq<Block>, b: seq<Block>)
    ensures Due(p, v, a + b) == Due(p, v, a) + Due(p, v, b)
    decreases |a|
  {
    if a == [] {
      assert a + b == b;
    } else {
      assert (a + b)[1..] == a[1..] + b;
      DueAppend(p, v, a[1..], b);
    }
  }

  lemma {:induction false} DueMembers(p: Props, v: bool, bs: seq<Block>, b: Block)
    ensures b in Due(p, v, bs) <==> b in bs && Shown(p, v, b)
    decreases |bs|
  {
    if bs != [] {
      DueMembers(p, v, bs[1..], b);
      assert bs == [bs[0]] + bs[1..];
    }
  }

  lemma {:induction false} DueSorted(p: Props, v: bool, bs: seq<Block>)
    requires forall i, j :: 0 <= i < j < |bs| ==> Rank(bs[i]) < Rank(bs[j])
    ensures forall i, j :: 0 <= i < j < |Due(p, v, bs)| ==> Rank(Due(p, v, bs)[i]) < Rank(Due(p, v, bs)[j])
    decreases |bs|
  {
    if bs != [] {
      DueSorted(p, v, bs[1..]);
      forall b | b in Due(p, v, bs[1..])
        ensures Rank(bs[0]) < Rank(b)
      {
        DueMembers(p, v, bs[1..], b);
      }
    }
  }

  /** A block appears in the header exactly when its input calls for it. */
  lemma BlockPresence(env: Environment, p: Props, b: Block)
    ensures b in Outline(Render(env, p)) <==> Present(p, b)
  {
    OutlineOfRender(env, p);
    DueMembers(p, UrlPattern.OccursIn(p.website), AllBlocks, b);
  }

  lemma AllBlocksRanked()
    ensures forall i :: 0 <= i < |AllBlocks| ==> Rank(AllBlocks[i]) == i
  {
  }

  lemma DueOfAllSorted(p: Props, v: bool)
    ensures var o := Due(p, v, AllBlocks);
            forall i, j :: 0 <= i < j < |o| ==> Rank(o[i]) < Rank(o[j])
  {
    AllBlocksRanked();
    DueSorted(p, v, AllBlocks);
  }

  /** Blocks appear in the fixed order, each at most once. */
  lemma BlockOrder(env: Environment, p: Props)
    ensures var o := Outline(Render(env, p));
            forall i, j :: 0 <= i < j < |o| ==> Rank(o[i]) < Rank(o[j])
  {
    OutlineOfRender(env, p);
    DueOfAllSorted(p, UrlPattern.OccursIn(p.website));
  }

  /** The last child of the text container is the website paragraph, linking to `href` and showing `t`. */
  ghost predicate WebsiteLast(r: HeaderNode, href: string, t: string) {
    && r.Element? && |r.children| >= 1
    && var flex := r.children[0];
    && flex.Element? && flex.kind == FlexBox && |flex.children| >= 1
    && var text := flex.children[|flex.children| - 1];
    && text.Element? && text.kind == TextBox && |text.children| >= 1
    && var para := text.children[|text.children| - 1];
    && para.Element? && para.kind == WebsiteParagraph
    && para.children == [Element(Link(href, "_blank", "noopener noreferrer"), [], [Text(t)])]
  }

  lemma AssembledWebsiteLink(p: Props, v: bool, t: string)
    requires p.website != "" && v
    ensures WebsiteLast(Assemble(p, v, t), p.website, t)
  {
    var website := WebsiteBlock(p, v, t);
    var children := LocationBlock(p) + NameBlock(p) + website;
    assert children[|children| - 1] == website[0];
  }

  /**
   When the website block is due, it is the last child of the text container,
   and its link points at the website as given and shows the hostname without
   its first `www.`.
   */
  lemma RenderedWebsiteLink(env: Environment, p: Props)
    requires Present(p, WebsitePart)
    ensures WebsiteLast(Render(env, p), p.website, LinkText(env, p.website))
  {
    AssembledWebsiteLink(p, UrlPattern.ValidateUrl(p.website), LinkText(env, p.website));
  }

  /**
   A header given only a name shows the name heading and nothing else, whatever
   the alignment.
   */
  lemma DefaultsShowOnlyName(env: Environment, name: string, a: Alignment)
    requires name != ""
    ensures Outline(Render(env, WithDefaults(name).(alignment := a))) == [NamePart]
  {
    var p := WithDefaults(name).(alignment := a);
    OutlineOfRender(env, p);
    OnlyNameDue(p, UrlPattern.OccursIn(p.website));
  }

  lemma OnlyNameDue(p: Props, v: bool)
    requires p.name != "" && p.intro == p.website == p.avatarSrc == p.location == "" && p.interests == []
    ensures Due(p, v, AllBlocks) == [NamePart]
  {
    DueCons(p, v, AvatarPart, AllBlocks[1..]);
    DueCons(p, v, LocationPart, AllBlocks[2..]);
    DueCons(p, v, NamePart, AllBlocks[3..]);
    DueCons(p, v, WebsitePart, AllBlocks[4..]);
    DueCons(p, v, IntroPart, AllBlocks[5..]);
    DueCons(p, v, TagListPart, []);
  }

  /** Every block but the website reads the same props whatever the website is. */
  lemma BlocksIgnoreWebsite(p: Props, q: Props)
    requires q == p.(website := q.website)
    ensures AvatarBlock(p) == AvatarBlock(q) && LocationBlock(p) == LocationBlock(q)
    ensures NameBlock(p) == NameBlock(q) && IntroBlock(p) == IntroBlock(q)
    ensures TagListBlock(p) == TagListBlock(q) && HeaderStyle(p) == HeaderStyle(q)
  {
  }

  /**
   A website in which the URL pattern does not occur removes the website block
   and nothing else: the header is the one the same props without a website get.
   */
  lemma InvalidWebsiteOnlyDropsLink(env: Environment, p: Props)
    requires !UrlPattern.OccursIn(p.website)
    ensures Render(env, p) == Render(env, p.(website := ""))
  {
    AssembleWithoutWebsite(p, LinkText(env, p.website), UrlPattern.ValidateUrl(""), LinkText(env, ""));
  }

  lemma AssembleWithoutWebsite(p: Props, t: string, v': bool, t': string)
    ensures Assemble(p, false, t) == Assemble(p.(website := ""), v', t')
  {
    var q := p.(website := "");
    BlocksIgnoreWebsite(p, q);
    assert WebsiteBlock(p, false, t) == WebsiteBlock(q, v', t') == [];
  }
}

=== FILE: strings.dfy ===
/**
 The string operations the header needs: `indexOf` and `replace` with a plain
 string pattern, which in JavaScript replaces only the FIRST occurrence of the
 pattern, wherever it is, and leaves the string unchanged when there is none.
 */
module Strings {
  import opened Markup

  /** `pat` occurs in `s` starting at position `k`. */
  predicate OccursAt(s: string, pat: string, k: nat) {
    k + |pat| <= |s| && s[k..k + |pat|] == pat
  }

  /** `k` is the leftmost occurrence of `pat` in `s`. */
  ghost predicate FirstOccurrence(s: string, pat: string, k: nat) {
    OccursAt(s, pat, k) && forall j: nat :: j < k ==> !OccursAt(s, pat, j)
  }

  /** `s.indexOf(pat, from)`, with `None` for -1. */
  function IndexOfFrom(s: string, pat: string, from: nat): (r: Option<nat>)
    requires from <= |s|
    ensures r.Some? ==> from <= r.value && OccursAt(s, pat, r.value)
    ensures r.Some? ==> forall j: nat :: from <= j < r.value ==> !OccursAt(s, pat, j)
    ensures r.None? ==> forall j: nat :: from <= j ==> !OccursAt(s, pat, j)
    decreases |s| - from
  {
    if from + |pat| > |s| then None
    else if s[from..from + |pat|] == pat then Some(from)
    else
      // a mismatch means `pat` is non-empty, so `from` is not yet the end
      assert from < |s|;
      IndexOfFrom(s, pat, from + 1)
  }

  function IndexOf(s: string, pat: string): (r: Option<nat>)
    ensures r.Some? ==> FirstOccurrence(s, pat, r.value)
    ensures r.None? <==> forall j: nat :: !OccursAt(s, pat, j)
  {
    IndexOfFrom(s, pat, 0)
  }

  /**
   `s.replace(pat, rep)`: the first occurrence of `pat` is replaced by `rep`.
   Putting `pat` back in place of `rep` at the reported position gives `s`
   again, and a string without `pat` is returned unchanged. A replacement
   string containing `$` would be read by JavaScript as a substitution
   pattern (`$&`, `$$`, `` $` ``, `$'`), so only replacements without `$` are
   modelled.
   */
  function ReplaceFirst(s: string, pat: string, rep: string): (r: string)
    requires '$' !in rep
    ensures (forall j: nat :: !OccursAt(s, pat, j)) ==> r == s
    ensures (exists j: nat :: OccursAt(s, pat, j)) ==>
              exists k: nat :: FirstOccurrence(s, pat, k) && k + |rep| <= |r|
                               && r[k..k + |rep|] == rep
                               && s == r[..k] + pat + r[k + |rep|..]
    ensures |r| == |s| || |r| == |s| - |pat| + |rep|
  {
    match IndexOf(s, pat)
    case None => s
    case Some(k) =>
      var r := s[..k] + rep + s[k + |pat|..];
      assert r[..k] == s[..k];
      assert r[k..k + |rep|] == rep;
      assert r[k + |rep|..] == s[k + |pat|..];
      assert s == s[..k] + s[k..k + |pat|] + s[k + |pat|..];
      r
  }
}

=== FILE: url_pattern.dfy ===
/**
 The website check of the profile header: the regular expression

   https?:\/\/(www\.)?[-a-zA-Z0-9@:%._+~#=]{2,256}\.[a-z]{2,6}\b([-a-zA-Z0-9@:%_+.~#?&//=]*)

 used with `test`, i.e. unanchored and without flags. `OccursIn` says
 declaratively what it means for the pattern to match somewhere in a string
 (some start, some end and some choice at every optional or repeated part);
 `ValidateUrl` is the executable checker, proved to agree with it.
 */
module UrlPattern {
  import Strings

  datatype CharClass = DomainClass | TldClass | TailClass

  predicate IsAsciiAlphanumeric(c: char) {
    'a' <= c <= 'z' || 'A' <= c <= 'Z' || '0' <= c <= '9'
  }

  /** Membership in the three bracket expressions of the pattern. */
  predicate InClass(c: char, cls: CharClass) {
    match cls
    case DomainClass => c == '-' || IsAsciiAlphanumeric(c) || c in "@:%._+~#="
    case TldClass => 'a' <= c <= 'z'
    case TailClass => c == '-' || IsAsciiAlphanumeric(c) || c in "@:%_+.~#?&/="
  }

  /** A word character as `\b` sees it without the unicode flag. */
  predicate IsWordChar(c: char) {
    IsAsciiAlphanumeric(c) || c == '_'
  }

  /** `s[i..j]` consists of characters of the class `cls` only. */
  predicate Run(s: string, i: nat, j: nat, cls: CharClass) {
    i <= j <= |s| && forall k :: i <= k < j ==> InClass(s[k], cls)
  }

  // The parts of the pattern, each spanning `s[from..to]`.

  /** `https?:\/\/` */
  predicate Scheme(s: string, i: nat, p: nat) {
    i <= p <= |s| && (s[i..p] == "http://" || s[i..p] == "https://")
  }

  /** `(www\.)?` */
  predicate OptionalWww(s: string, p: nat, q: nat) {
    p <= q <= |s| && (q == p || s[p..q] == "www.")
  }

  /** `[-a-zA-Z0-9@:%._+~#=]{2,256}` */
  predicate DomainLabel(s: string, q: nat, d: nat) {
    q + 2 <= d <= q + 256 && Run(s, q, d, DomainClass)
  }

  /** `\.[a-z]{2,6}` */
  predicate TopLevel(s: string, d: nat, e: nat) {
    d < |s| && s[d] == '.' && d + 3 <= e <= d + 7 && Run(s, d + 1, e, TldClass)
  }

  /** `\b`: exactly one of the characters around position `e` is a word character. */
  predicate WordBoundary(s: string, e: nat) {
    e <= |s| && ((0 < e && IsWordChar(s[e - 1])) != (e < |s| && IsWordChar(s[e])))
  }

  /** `([-a-zA-Z0-9@:%_+.~#?&//=]*)` */
  predicate Tail(s: string, e: nat, t: nat) {
    Run(s, e, t, TailClass)
  }

  /** The pattern matches `s[i..t]`, its parts meeting at `p`, `q`, `d` and `e`. */
  predicate MatchParts(s: string, i: nat, p: nat, q: nat, d: nat, e: nat, t: nat) {
    && Scheme(s, i, p)
    && OptionalWww(s, p, q)
    && DomainLabel(s, q, d)
    && TopLevel(s, d, e)
    && WordBoundary(s, e)
    && Tail(s, e, t)
  }

  /** The whole pattern matches exactly `s[i..t]`. */
  ghost predicate MatchesSpan(s: string, i: nat, t: nat) {
    exists p: nat, q: nat, d: nat, e: nat :: MatchParts(s, i, p, q, d, e, t)
  }

  /** `urlRegex.test(s)`: the pattern matches some substring of `s`. */
  ghost predicate OccursIn(s: string) {
    exists i: nat, t: nat :: MatchesSpan(s, i, t)
  }

  // The executable checker.

  /** The end of the longest run of `cls` characters starting at `i`. */
  function RunEnd(s: string, i: nat, cls: CharClass): (r: nat)
    requires i <= |s|
    ensures i <= r <= |s|
    ensures forall j: nat :: i <= j <= |s| ==> (Run(s, i, j, cls) <==> j <= r)
    decreases |s| - i
  {
    if i < |s| && InClass(s[i], cls) then
      assert forall j: nat :: i + 1 <= j <= |s| ==> (Run(s, i, j, cls) <==> Run(s, i + 1, j, cls));
      RunEnd(s, i + 1, cls)
    else
      assert forall j: nat :: i < j <= |s| ==> !Run(s, i, j, cls);
      i
  }

  /**
   Whether `\.[a-z]{2,6}\b` matches at `d`. Since every letter of the top-level
   label is a word character, the boundary can only sit at the end of the
   longest lowercase run, so there is a single end to try.
   */
  function TopLevelAt(s: string, d: nat): (r: bool)
    requires d <= |s|
    ensures r <==> exists e: nat :: TopLevel(s, d, e) && WordBoundary(s, e)
  {
    if d < |s| && s[d] == '.' then
      var e := RunEnd(s, d + 1, TldClass);
      TopLevelEndsAtRunEnd(s, d);
      d + 3 <= e <= d + 7 && (e == |s| || !IsWordChar(s[e]))
    else
      false
  }

  lemma TopLevelEndsAtRunEnd(s: string, d: nat)
    requires d < |s| && s[d] == '.'
    ensures forall e: nat :: TopLevel(s, d, e) && WordBoundary(s, e) ==> e == RunEnd(s, d + 1, TldClass)
    ensures var e := RunEnd(s, d + 1, TldClass);
            (TopLevel(s, d, e) && WordBoundary(s, e)) <==> (d + 3 <= e <= d + 7 && (e == |s| || !IsWordChar(s[e])))
  {
    var end := RunEnd(s, d + 1, TldClass);
    forall e: nat | TopLevel(s, d, e) && WordBoundary(s, e)
      ensures e == end
    {
      // the last letter of the label is a word character, so the next one is not a letter
      assert InClass(s[e - 1], TldClass);
      assert e < |s| ==> !Run(s, d + 1, e + 1, TldClass);
    }
    if d + 3 <= end <= d + 7 {
      assert Run(s, d + 1, end, TldClass);
      assert InClass(s[end - 1], TldClass);
    }
  }

  /** Whether some `d` in `[d0, hi]` starts a match of `\.[a-z]{2,6}\b`. */
  function SearchTopLevel(s: string, d0: nat, hi: nat): (r: bool)
    requires hi <= |s| && d0 <= hi + 1
    ensures r <==> exists d: nat :: d0 <= d <= hi && TopLevelAt(s, d)
    decreases hi + 1 - d0
  {
    if d0 > hi then false else TopLevelAt(s, d0) || SearchTopLevel(s, d0 + 1, hi)
  }

  /** Whether `[-a-zA-Z0-9@:%._+~#=]{2,256}\.[a-z]{2,6}\b` matches at `q`. */
  function HostAt(s: string, q: nat): (r: bool)
    requires q <= |s|
    ensures r <==> exists d: nat, e: nat :: DomainLabel(s, q, d) && TopLevel(s, d, e) && WordBoundary(s, e)
  {
    var runEnd := RunEnd(s, q, DomainClass);
    var hi := if q + 256 < runEnd then q + 256 else runEnd;
    HostAtWitness(s, q, hi);
    q + 2 <= hi && SearchTopLevel(s, q + 2, hi)
  }

  lemma HostAtWitness(s: string, q: nat, hi: nat)
    requires q <= |s|
    requires hi == (if q + 256 < RunEnd(s, q, DomainClass) then q + 256 else RunEnd(s, q, DomainClass))
    ensures (exists d: nat, e: nat :: DomainLabel(s, q, d) && TopLevel(s, d, e) && WordBoundary(s, e))
            <==> (exists d: nat :: q + 2 <= d <= hi && TopLevelAt(s, d))
  {
    if exists d: nat, e: nat :: DomainLabel(s, q, d) && TopLevel(s, d, e) && WordBoundary(s, e) {
      var d: nat, e: nat :| DomainLabel(s, q, d) && TopLevel(s, d, e) && WordBoundary(s, e);
      assert TopLevelAt(s, d);
    }
    if exists d: nat :: q + 2 <= d <= hi && TopLevelAt(s, d) {
      var d: nat :| q + 2 <= d <= hi && TopLevelAt(s, d);
      var e: nat :| TopLevel(s, d, e) && WordBoundary(s, e);
      assert DomainLabel(s, q, d);
    }
  }

  /** Whether `(www\.)?` followed by the host part matches at `p`. */
  function AfterScheme(s: string, p: nat): (r: bool)
    requires p <= |s|
    ensures r <==> exists q: nat, d: nat, e: nat ::
                     OptionalWww(s, p, q) && DomainLabel(s, q, d) && TopLevel(s, d, e) && WordBoundary(s, e)
  {
    var www := p + 4 <= |s| && s[p..p + 4] == "www.";
    assert OptionalWww(s, p, p);
    assert www ==> OptionalWww(s, p, p + 4);
    HostAt(s, p) || (www && HostAt(s, p + 4))
  }

  /** Whether the pattern matches some span starting at `i`. */
  function MatchAt(s: string, i: nat): (r: bool)
    requires i <= |s|
    ensures r <==> exists t: nat :: MatchesSpan(s, i, t)
  {
    var r := || (i + 7 <= |s| && s[i..i + 7] == "http://" && AfterScheme(s, i + 7))
             || (i + 8 <= |s| && s[i..i + 8] == "https://" && AfterScheme(s, i + 8));
    MatchAtComplete(s, i);
    if r then MatchAtSound(s, i); r else r
  }

  /** A scheme is one of the two literals, so it ends 7 or 8 characters on. */
  lemma SchemeEnd(s: string, i: nat, p: nat)
    requires Scheme(s, i, p)
    ensures || (p == i + 7 && s[i..i + 7] == "http://")
            || (p == i + 8 && s[i..i + 8] == "https://")
  {
    assert |s[i..p]| == p - i;
  }

  lemma MatchAtComplete(s: string, i: nat)
    requires i <= |s|
    ensures (exists t: nat :: MatchesSpan(s, i, t)) ==>
              || (i + 7 <= |s| && s[i..i + 7] == "http://" && AfterScheme(s, i + 7))
              || (i + 8 <= |s| && s[i..i + 8] == "https://" && AfterScheme(s, i + 8))
  {
    if exists t: nat :: MatchesSpan(s, i, t) {
      var t: nat :| MatchesSpan(s, i, t);
      var p: nat, q: nat, d: nat, e: nat :| MatchParts(s, i, p, q, d, e, t);
      SchemeEnd(s, i, p);
      assert AfterScheme(s, p);
    }
  }

  lemma MatchAtSound(s: string, i: nat)
    requires i <= |s|
    requires || (i + 7 <= |s| && s[i..i + 7] == "http://" && AfterScheme(s, i + 7))
             || (i + 8 <= |s| && s[i..i + 8] == "https://" && AfterScheme(s, i + 8))
    ensures exists t: nat :: MatchesSpan(s, i, t)
  {
    var p: nat := if i + 7 <= |s| && s[i..i + 7] == "http://" && AfterScheme(s, i + 7) then i + 7 else i + 8;
    assert Scheme(s, i, p) && AfterScheme(s, p);
    var q: nat, d: nat, e: nat :| OptionalWww(s, p, q) && DomainLabel(s, q, d) && TopLevel(s, d, e) && WordBoundary(s, e);
    assert Tail(s, e, e);
    assert MatchParts(s, i, p, q, d, e, e);
    assert MatchesSpan(s, i, e);
  }

  /** Whether the pattern matches some span starting at or after `i`. */
  function SearchFrom(s: string, i: nat): (r: bool)
    requires i <= |s|
    ensures r <==> exists j: nat, t: nat :: i <= j && MatchesSpan(s, j, t)
    decreases |s| - i
  {
    MatchesSpanInBounds(s);
    MatchAt(s, i) || (i < |s| && SearchFrom(s, i + 1))
  }

  lemma MatchesSpanInBounds(s: string)
    ensures forall j: nat, t: nat :: MatchesSpan(s, j, t) ==> j <= t <= |s|
  {
    forall j: nat, t: nat | MatchesSpan(s, j, t)
      ensures j <= t <= |s|
    {
      var p: nat, q: nat, d: nat, e: nat :| MatchParts(s, j, p, q, d, e, t);
    }
  }

  /** `validateUrl(url)`, i.e. `urlRegex.test(url)`. */
  function ValidateUrl(url: string): (ok: bool)
    ensures ok <==> exists i: nat, t: nat :: MatchesSpan(url, i, t)
  {
    SearchFrom(url, 0)
  }

  // Properties of the pattern.

  /** Example: a full https address with a `www.` host and a path is accepted. */
  lemma AcceptsExample()
    ensures ValidateUrl("https://www.example.com/path")
  {
    var s := "https://www.example.com/path";
    assert Scheme(s, 0, 8);
    assert OptionalWww(s, 8, 12);
    assert DomainLabel(s, 12, 19);
    assert TopLevel(s, 19, 23);
    assert WordBoundary(s, 23);
    assert Tail(s, 23, 28);
    assert MatchParts(s, 0, 8, 12, 19, 23, 28);
  }

  /** Every match contains the literal `http`. */
  lemma MatchHasScheme(s: string)
    ensures OccursIn(s) ==> exists i: nat :: Strings.OccursAt(s, "http", i)
  {
    if OccursIn(s) {
      var i: nat, t: nat :| MatchesSpan(s, i, t);
      var p: nat, q: nat, d: nat, e: nat :| MatchParts(s, i, p, q, d, e, t);
      SchemeEnd(s, i, p);
      assert s[i..i + 4] == s[i..p][..4];
      assert Strings.OccursAt(s, "http", i);
    }
  }

  /** Example: free text without a scheme is rejected. */
  lemma RejectsExample()
    ensures !ValidateUrl("not a url")
  {
    var s := "not a url";
    forall i: nat
      ensures !Strings.OccursAt(s, "http", i)
    {
      if i + 4 <= |s| {
        assert s[i..i + 4][0] == s[i];
        assert s[i] in s;
        assert 'h' !in s;
      }
    }
    MatchHasScheme(s);
  }

  lemma ShiftRun(x: string, s: string, a: nat, b: nat, cls: CharClass)
    requires Run(s, a, b, cls)
    ensures Run(x + s, |x| + a, |x| + b, cls)
  {
    forall k | |x| + a <= k < |x| + b
      ensures InClass((x + s)[k], cls)
    {
      assert (x + s)[k] == s[k - |x|];
    }
  }

  lemma ShiftSlice(x: string, s: string, a: nat, b: nat)
    requires a <= b <= |s|
    ensures (x + s)[|x| + a..|x| + b] == s[a..b]
  {
  }

  lemma ShiftScheme(x: string, s: string, i: nat, p: nat)
    requires Scheme(s, i, p)
    ensures Scheme(x + s, |x| + i, |x| + p)
  {
    ShiftSlice(x, s, i, p);
  }

  lemma ShiftWww(x: string, s: string, p: nat, q: nat)
    requires OptionalWww(s, p, q)
    ensures OptionalWww(x + s, |x| + p, |x| + q)
  {
    ShiftSlice(x, s, p, q);
  }

  lemma ShiftTopLevel(x: string, s: string, d: nat, e: nat)
    requires TopLevel(s, d, e)
    ensures TopLevel(x + s, |x| + d, |x| + e)
  {
    ShiftRun(x, s, d + 1, e, TldClass);
    assert (x + s)[|x| + d] == s[d];
  }

  lemma ShiftBoundary(x: string, s: string, e: nat)
    requires 0 < e && WordBoundary(s, e)
    ensures WordBoundary(x + s, |x| + e)
  {
    assert (x + s)[|x| + e - 1] == s[e - 1];
    assert |x| + e < |x + s| ==> (x + s)[|x| + e] == s[e];
  }

  lemma ShiftParts(x: string, s: string, i: nat, p: nat, q: nat, d: nat, e: nat, t: nat)
    requires MatchParts(s, i, p, q, d, e, t)
    ensures MatchParts(x + s, |x| + i, |x| + p, |x| + q, |x| + d, |x| + e, |x| + t)
  {
    ShiftScheme(x, s, i, p);
    ShiftWww(x, s, p, q);
    ShiftRun(x, s, q, d, DomainClass);
    ShiftTopLevel(x, s, d, e);
    ShiftBoundary(x, s, e);
    ShiftRun(x, s, e, t, TailClass);
  }

  /**
   The test is unanchored: whatever precedes a matching string, the pattern
   still matches, at the same place shifted.
   */
  lemma UnanchoredPrefix(x: string, s: string)
    requires OccursIn(s)
    ensures OccursIn(x + s)
  {
    var i: nat, t: nat :| MatchesSpan(s, i, t);
    var p: nat, q: nat, d: nat, e: nat :| MatchParts(s, i, p, q, d, e, t);
    ShiftParts(x, s, i, p, q, d, e, t);
    assert MatchesSpan(x + s, |x| + i, |x| + t);
  }
}
